=== FILE: README.md ===
# isolate — constant registry and evaluation context, in Dafny

`Isolate` (isolate.js) lets a host application evaluate expression strings
with `eval` against a set of named constants and a receiver object used as
`this`. This project models everything around the `eval` call:

- `Names`: the identifier check `/^[$a-z_][$_a-z0-9]*$/i` that `constant`
  applies. It is modelled as written, as two character classes matched with
  the `i` flag's case folding (`PatternMatches`). It is also given as the
  explicit predicate `IsValidName` (`[$A-Za-z_][$A-Za-z0-9_]*`). A lemma
  proves the two agree. `Test` is a scanning matcher proved against the same
  predicate.
- `Registry`: `this.constants`, an ordered list of name/value entries.
  Every stored name is a valid identifier, so none looks like an array index.
  That means `Object.keys` lists the names in insertion order, and an
  overwrite keeps the old position. `Constant` is `constant(name, value)`.
  `Construct` and `New` are the constructor's loop over
  `Object.entries(constants)`.
- `Context`: `context(data)` captures the keys and values and the receiver
  (`Build`). `Lookup` resolves identifiers along the scope chain that the
  direct `eval` sees. `Evaluate`, `Call` and `Async` model the evaluator
  `ctx(command, isAsync)` and `ctx.async`. `eval` itself is an opaque
  parameter `ev` that, given the command, the context and the mode, returns
  `Value(v)` or `Throw(e)`.
- `Statics`: `Isolate.constant` and `Isolate.command`, threaded through one
  shared registry that starts as `new Isolate()`.

Behaviours of the code that the model keeps, although a reader of the
documentation might expect otherwise:

- `__proto__` passes the identifier check, but on a registry that still
  inherits from `Object.prototype`, `this.constants["__proto__"] = v` runs the
  inherited setter instead of creating an own property, so the name does not
  become a key (`Registry.Registrable`). What happens once the prototype has
  been replaced is listed under "Left out".
- The generated function text is compiled by a direct `eval` inside a class
  body, so it is strict mode code. A stored key that is a reserved word, a
  strict-mode reserved word, `eval` or `arguments` cannot be a parameter
  name. Neither can `ctx`, because the same function body declares
  `const ctx`. Once such a name is stored, every later `context` call of that
  instance throws a `SyntaxError` (`Context.UnbindableNameBreaksContext`).
- Inside the evaluated command, `command`, `isAsync` and `arguments` are the
  evaluator's own names and shadow constants of the same name. Names that are
  not registered fall through to `ctx`, the evaluator itself, then to the
  `context` method's locals (`data`,
  `keys`, `contextFnString`), to the module's names, and to the host. Only
  after all of those does a "not defined" error arise.
- `isAsync` is compared with `=== true`. Only the boolean `true`, as passed by
  `ctx.async`, selects the rejecting path.
- The rejecting path calls `Promise.reject(e)`, and `Promise` is looked up
  like every other name. A constant called `Promise` shadows the host's
  promise constructor, and then `ctx.async` hands back whatever that
  constant's `reject` gives (`Context.RejectWith`).
- `({ [name]: value })[name]` evaluates to `value` itself, so the stored value
  is the supplied one.
- Dotted and bracketed paths, wrapping of functions with an implicit first
  argument, and a static `context` are not implemented in isolate.js: the
  identifier check rejects `is.string`, values are stored unwrapped, and only
  the static `constant` and `command` exist. The model follows the code.

## Model

| member | source | states |
|---|---|---|
| `Names.PatternMatchesValidNames` | isolate.js:63-70 | The regular expression with its `i` flag accepts a name exactly when it is `[$A-Za-z_][$A-Za-z0-9_]*`. A leading digit, a `.`, a `[`, a space or a non-ASCII character makes it fail. |
| `Names.Test` | isolate.js:70 | `.test(name)` returns true if and only if the whole name is a valid identifier. |
| `Registry.Find` | isolate.js:75 | Returns the position of the first entry with the given name, or nothing exactly when no entry has that name. |
| `Registry.Get` | isolate.js:45 | `this.constants[k]`, read as an own property, is the value of the entry called `k`, and is absent exactly when `k` is not a key. Inherited members such as `toString` are not represented. |
| `Registry.Constant` | isolate.js:69-76 | A refused name or `__proto__` leaves the registry unchanged. Any other name afterwards maps to the new value. Every other name keeps its value. A new name is appended to the key order and an existing one keeps its place. |
| `Registry.Diagnostic` | isolate.js:70-71 | A message is written exactly for names the identifier check refuses, and it ends with the refused name. |
| `Registry.InvalidNameIsReportedAndSkipped` | isolate.js:70-71 | A diagnostic is produced exactly for names the check refuses, and for those the registry stays as it was. The refusal is reported, not thrown. |
| `Registry.ConstantIsAssignment` | isolate.js:75 | Viewed as a map, `constant` is the single assignment `constants[name] = value` for a stored name, and no change otherwise. |
| `Registry.ConstantOverwrites` | isolate.js:75 | Registering a name twice gives the registry that registering only the second value gives. |
| `Registry.ConstantAll` | isolate.js:16-18 | Registering entries one after another keeps the existing keys in front, adds exactly the registrable supplied names, and only ever changes a value to one supplied under that name. |
| `Registry.New` | isolate.js:12-20 | A new instance has a key exactly for each supplied name that passes the check and is not `__proto__`. Every stored value was supplied under its name. |
| `Registry.Construct` | isolate.js:12-20 | The constructor's loop produces the left fold of `constant` over the supplied entries, starting from the empty registry. |
| `Registry.NewHoldsLastValues` | isolate.js:12-20 | A new instance maps each registrable supplied name to the value of its last entry. It maps every other name to nothing. |
| `Registry.NewKeysInFirstOccurrenceOrder` | isolate.js:12-20 | The keys of a new instance are the registrable supplied names, each once, in order of first occurrence. |
| `Context.Build` | isolate.js:32-46 | `context(data)` binds exactly the registry keys, in registry order, each to its value at build time, with `data` as receiver. It fails exactly when some key cannot be a strict-mode parameter name. |
| `Context.Lookup` | isolate.js:34-45 | A name resolves to a constant only if it was captured under that name and is not one of the evaluator's own names. "Not defined" happens only when neither the snapshot nor the host declares the name. |
| `Context.LookupFindsRegisteredValue` | isolate.js:33-45 | A built context resolves every registered name, except `command`, `isAsync` and `arguments`, to its value at build time, in the context as built; see `Context.Evaluate` under Left out for commands that assign a captured name. |
| `Context.UnregisteredNameIsNotBound` | isolate.js:33-45 | An unregistered name never resolves to a constant. It resolves as in a context of an empty registry, and it is "not defined" when nothing outside declares it. |
| `Context.InstancesDoNotShareConstants` | isolate.js:13-33 | A name supplied only to instance `a` is a key of `a`, but a context of instance `b` does not resolve it to a constant. |
| `Context.ContextIsStaleUntilRebuilt` | isolate.js:25-26 | After a later `constant` call, an existing context still resolves the name as it did before. A rebuilt context resolves it to the new value. This is the context as built; see `Context.Evaluate` under Left out for commands that assign a captured name. |
| `Context.UnbindableNameBreaksContext` | isolate.js:34-36 | Storing a valid name that cannot be a strict-mode parameter (`ctx`, `eval`, a reserved word) makes every later `context` call fail with a `SyntaxError`. |
| `Context.RejectWith` | isolate.js:40 | `Promise.reject(e)` gives a rejection carrying `e` when no constant called `Promise` was captured. Otherwise it gives what the captured value's `reject` gives. The model never tags that result `Rejected`: a promise `reject` returns is an ordinary value, even a rejected host promise, as when the host's own `Promise` was captured. |
| `Context.Evaluate` | isolate.js:36-42 | A successful evaluation is returned as is. The command is evaluated knowing the mode. The synchronous mode never rejects and hands back exactly `eval`'s completion. Without a captured `Promise`, the asynchronous mode never throws and also hands back `eval`'s completion. A rejection only ever carries the error `eval` threw, and only in the asynchronous mode. |
| `Context.Call` | isolate.js:38-40 | `ctx(command)` hands back exactly `eval`'s completion and never rejects, whatever `Promise` is bound to. |
| `Context.Async` | isolate.js:43 | `ctx.async(command)` returns a successful value unwrapped. Without a captured `Promise` it never throws and hands back `eval`'s completion. |
| `Context.CallIsSynchronousEvaluate` | isolate.js:36-43 | `ctx(command)`, with `isAsync` left out, is the evaluator's non-`true` path for every binding of `Promise`. |
| `Context.ModesAgreeExactlyOnSuccess` | isolate.js:38-43 | A successful value is returned unwrapped by both `ctx` and `ctx.async`. When both modes succeed, they agree exactly when the command's result does not depend on the mode (`isAsync`, `arguments`). For a command that ignores the mode, and without a captured `Promise`, the two modes differ exactly when evaluation throws. |
| `Context.ErrorChannels` | isolate.js:39-43 | A thrown error is re-thrown unchanged by `ctx`. Under `ctx.async` it becomes a rejection carrying the same error, unless a captured `Promise` takes over, in which case the caller gets that constant's `reject` result. `ctx` never rejects. |
| `Context.CapturedPromiseIsTheRegisteredOne` | isolate.js:33-45 | A constant called `Promise` is captured like any other, and it is the value the asynchronous error path calls `reject` on, in the context as built; see `Context.Evaluate` under Left out. |
| `Statics.StaticConstant` | isolate.js:90-92 | `Isolate.constant` changes the shared registry as `defaultIsolater.constant` does: only the given name, only when it is registrable, and existing keys keep their order. |
| `Statics.StaticCommand` | isolate.js:108-110 | `Isolate.command` throws the build error exactly when `context` fails. Otherwise it runs synchronously: it never rejects, and it yields `eval`'s completion in the shared context. |
| `Statics.SharedRegistryAccumulates` | isolate.js:90-92 | After any sequence of static calls, the shared registry is what registering every `Isolate.constant` argument, in call order, produces. From module load (`DefaultRegistry`, an instance built without constants) that is `New` of those registrations. Commands are modelled as not registering anything themselves. |
| `Statics.Run` | isolate.js:90-113 | Running static calls in order answers each `constant` call with no value and each `command` call with an outcome. The shared registry only grows in key order, and calls that are all commands leave it unchanged. |
| `Statics.CommandUsesSharedRegistry` | isolate.js:108-113 | The reply to every `Isolate.command(c, d)` equals `defaultIsolater.context(d)(c)` on the shared registry, which holds all earlier `Isolate.constant` registrations. |

## Left out

- The evaluation of the command by `eval` (isolate.js:38): it is the opaque parameter `ev`. The model does not say how `ev` uses `Lookup` or the receiver. The `eval` of the generated function text (isolate.js:57) is what `Context.Build` models.
- Context.Evaluate: assumes the evaluated command has no effect on the evaluator. A command can assign `isAsync` (`isAsync = true; throw 1` rejects even under `ctx`), assign a captured constant, which is a parameter that later calls of the same `ctx` then see, or replace the global `Promise`. None of that is modelled: `ev` is a function of the command, the snapshot and the mode only, and a captured `Promise` is read from the snapshot.
- Context.Async: the behaviour of a captured `Promise` is the opaque parameter `reject`. Its result is never tagged `Rejected`, even when it is a rejected host promise (the host's own `Promise` captured as a constant), because a returned promise is an ordinary value in this model. Its "never throws" also assumes the command does not assign `isAsync`: `ctx.async("isAsync = false; throw 1")` throws.
- Context.Call: "never rejects" assumes the command does not assign `isAsync`: `ctx("isAsync = true; throw 1")` rejects.
- Context.ModesAgreeExactlyOnSuccess: "the two modes differ exactly when evaluation throws" assumes the command does not assign `isAsync`. `isAsync = true; throw 1` rejects under both `ctx` and `ctx.async`, and `isAsync = false; throw 1` throws under both, although neither command's completion depends on the mode.
- Context.Evaluate: a second argument to `ctx` other than `true` is modelled as an omitted one. `ctx("isAsync", 1)` yields `1` and sees `arguments.length` 2, but the model gives it the completion of `ctx("isAsync")`.
- Context.ErrorChannels: assumes, as `Context.Call` does, that the command does not assign `isAsync`. A command that assigns `isAsync` before throwing moves its error to the other channel, which the model does not represent.
- Statics.StaticCommand: the same assumption. `Isolate.command("isAsync = true; throw 1", d)` rejects.
- Statics.Run: assumes evaluated commands do not register constants, as for `Statics.SharedRegistryAccumulates`. `Isolate.command("Isolate.constant('x', 1)", d)` grows the shared registry, so "calls that are all commands leave it unchanged" holds only for such commands.
- Statics.SharedRegistryAccumulates: assumes evaluated commands do not register constants. A command can reach `Isolate.constant`, `defaultIsolater.constant` or `defaultIsolater.constants` through the scope chain, and such registrations are not counted.
- Statics.CommandUsesSharedRegistry: the shared registry it names holds only the registrations made through static `constant` calls; registrations made from inside earlier commands are not modelled, for the same reason.
- Promises and `await`: an asynchronous failure is only the `Rejected` tag. A promise returned by a successful evaluation is an ordinary value.
- `console.error` (isolate.js:71) prints the message; `Constant` returns no diagnostic. The message is the separate function `Registry.Diagnostic` of the name.
- Registry.Constant: assumes `this.constants` keeps `Object.prototype` as its prototype, and treats `__proto__` as a no-op. Three consequences of the real setter are not represented. `constant("__proto__", iso.constants)` throws a `TypeError` because the prototype would become cyclic. After `constant("__proto__", null)` the setter is gone, so a later `constant("__proto__", v)` creates an own key `__proto__`. After `__proto__` is registered with another object, later assignments may hit that object's inherited setters or read-only properties.
- Names are `seq<char>`, not UTF-16 code units, and `String()` coercion of a non-string name is not modelled. Neither changes what the ASCII-only pattern accepts for string names.
- The constructor's argument is modelled as its `Object.entries` list, which is empty when the argument is missing or falsy.
- `Context.Lookup` treats everything the runtime supplies outside isolate.js (CommonJS wrapper names, the global object) as the parameter `host`.
- The test file's `isolater.log` logger, the static `Isolate.context` it calls, and the test harness are not part of isolate.js and are not modelled.

=== FILE: context.dfy ===
/**
 * `context(data)` and the evaluator it returns (isolate.js:22-58).
 *
 * `context` captures `Object.keys(this.constants)` and the values under those
 * keys at the moment it is called, and generates the text
 *
 *     (function ( k1, ..., kn ) { const ctx = (function ( command, isAsync ) { ... }).bind( this ); ... })
 *
 * which it applies to `data` and the captured values. The result is an
 * evaluator closed over that snapshot and that receiver. Evaluation itself is
 * JavaScript `eval` and is not modelled: it is a parameter `ev` that maps a
 * command and a context to a completion.
 */
module Context {
  import opened Results
  import opened Registry

  /**
   * Names that cannot be a parameter of a function written in strict mode code.
   * The generated text is evaluated by a direct `eval` inside a class body, so
   * it is strict: reserved words, the strict-mode future reserved words, `eval`
   * and `arguments` are all refused. `await` stays usable because the text is
   * script code outside any async function.
   */
  const StrictReserved: set<string> := {
    "break", "case", "catch", "class", "const", "continue", "debugger", "default",
    "delete", "do", "else", "enum", "export", "extends", "false", "finally", "for",
    "function", "if", "import", "in", "instanceof", "new", "null", "return",
    "super", "switch", "this", "throw", "true", "try", "typeof", "var", "void",
    "while", "with", "yield",
    "implements", "interface", "let", "package", "private", "protected", "public", "static",
    "eval", "arguments"
  }

  /**
   * A key the generated function can take as a parameter. Besides the strict
   * reserved names, `ctx` is refused: the function body declares `const ctx`,
   * and a lexical declaration may not repeat a parameter name.
   */
  predicate Bindable(name: string) {
    name !in StrictReserved && name != "ctx"
  }

  /** An evaluator's closed-over state: the captured keys with their values, and the receiver `this`. */
  datatype Context<V, D> = Context(snapshot: seq<Entry<V>>, receiver: D)

  /** Parsing the generated text failed: it is thrown by `context` itself. */
  datatype BuildError = SyntaxError

  /**
   * `context(data)`: binds exactly the registry keys, in registry order, each
   * to the value it has now, with `data` as the receiver. It fails when one of
   * the keys cannot be a parameter name.
   */
  function Build<V, D>(c: Constants<V>, data: D): (r: Result<Context<V, D>, BuildError>)
    ensures r.Ok? <==> forall k :: k in Keys(c) ==> Bindable(k)
    ensures r.Ok? ==> r.value.receiver == data
    ensures r.Ok? ==> NamesOf(r.value.snapshot) == Keys(c)
    ensures r.Ok? ==> forall i :: 0 <= i < |r.value.snapshot| ==> Get(c, Keys(c)[i]) == Some(r.value.snapshot[i].value)
  {
    if forall i :: 0 <= i < |Keys(c)| ==> Bindable(Keys(c)[i]) then Ok(Context(c.entries, data))
    else Err(SyntaxError)
  }

  /** What an identifier in an evaluated command refers to. */
  datatype Binding<V> =
    | Bound(value: V)             // a constant captured by `context`
    | CommandText                 // `command`, the evaluator's first parameter
    | AsyncFlag                   // `isAsync`, the evaluator's second parameter
    | ArgumentsObject             // `arguments` of the evaluator function
    | Evaluator                   // `ctx`, the evaluator function itself
    | BuilderLocal(name: string)  // `data`, `keys` or `contextFnString` of the `context` method
    | ModuleLocal(name: string)   // `Isolate` or `defaultIsolater`, declared in isolate.js
    | HostGlobal(value: V)        // a name the runtime provides outside isolate.js
    | NotDefined                  // a ReferenceError "<name> is not defined"

  /** Names declared by the evaluator function, which shadow any constant of the same name. */
  const EvaluatorLocals: set<string> := {"command", "isAsync", "arguments"}

  /** Local names of the `context` method that the direct `eval` exposes to the generated text. */
  const BuilderLocals: set<string> := {"data", "keys", "contextFnString"}

  /** Names declared at the top level of isolate.js. */
  const ModuleLocals: set<string> := {"Isolate", "defaultIsolater"}

  /** The value of the captured constant called `name`, if it was captured. */
  function SnapshotValue<V>(snapshot: seq<Entry<V>>, name: string): Option<V> {
    match Find(snapshot, name)
    case None => None
    case Some(i) => Some(snapshot[i].value)
  }

  /**
   * Resolves an identifier of an evaluated command along the scope chain the
   * direct `eval` sees, innermost first: the evaluator function, the generated
   * function's parameters and `const ctx`, the `context` method, the module,
   * and finally `host`, everything the runtime provides (the CommonJS wrapper's
   * names and the global object).
   */
  function Lookup<V, D>(c: Context<V, D>, name: string, host: map<string, V>): (r: Binding<V>)
    ensures r.Bound? ==> name !in EvaluatorLocals && exists i :: 0 <= i < |c.snapshot| && c.snapshot[i] == Entry(name, r.value)
    ensures r.NotDefined? ==> name !in host && forall i :: 0 <= i < |c.snapshot| ==> c.snapshot[i].name != name
  {
    if name == "command" then CommandText
    else if name == "isAsync" then AsyncFlag
    else if name == "arguments" then ArgumentsObject
    else if SnapshotValue(c.snapshot, name).Some? then Bound(SnapshotValue(c.snapshot, name).value)
    else if name == "ctx" then Evaluator
    else if name in BuilderLocals then BuilderLocal(name)
    else if name in ModuleLocals then ModuleLocal(name)
    else if name in host then HostGlobal(host[name])
    else NotDefined
  }

  /**
   * A built context resolves every registered name, apart from the three the
   * evaluator function shadows, to the value it had when the context was built.
   */
  lemma LookupFindsRegisteredValue<V, D>(c: Constants<V>, data: D, name: string, host: map<string, V>)
    requires Build(c, data).Ok?
    requires Get(c, name).Some?
    requires name !in EvaluatorLocals
    ensures Lookup(Build(c, data).value, name, host) == Bound(Get(c, name).value)
  {
  }

  /**
   * A name that is not registered is never resolved to a constant: it falls
   * through to the names of isolate.js and the host, and when none of those
   * declares it, the lookup is a "not defined" error.
   */
  lemma UnregisteredNameIsNotBound<V, D>(c: Constants<V>, data: D, name: string, host: map<string, V>)
    requires Build(c, data).Ok?
    requires Get(c, name).None?
    ensures !Lookup(Build(c, data).value, name, host).Bound?
    ensures Lookup(Build(c, data).value, name, host) == Lookup(Build(Empty<V>(), data).value, name, host)
    ensures name !in EvaluatorLocals + BuilderLocals + ModuleLocals + {"ctx"} && name !in host ==>
              Lookup(Build(c, data).value, name, host) == NotDefined
  {
  }

  /**
   * Registries belong to one instance: a context built from instance `b` does
   * not resolve a name that was supplied only to instance `a`, although a
   * context of `a` does.
   */
  lemma InstancesDoNotShareConstants<V, D>(a: seq<Entry<V>>, b: seq<Entry<V>>, data: D, name: string, host: map<string, V>)
    requires Registrable(name) && name in NamesOf(a) && name !in NamesOf(b)
    requires Build(New(b), data).Ok?
    ensures name in Keys(New(a))
    ensures !Lookup(Build(New(b), data).value, name, host).Bound?
  {
  }

  /**
   * A context keeps the snapshot it was built from: after a later `constant`
   * call it still resolves the name as before, and only a context built again
   * sees the new value.
   */
  lemma ContextIsStaleUntilRebuilt<V, D>(c: Constants<V>, data: D, name: string, value: V, host: map<string, V>)
    requires Build(c, data).Ok?
    requires Registrable(name) && Bindable(name) && name !in EvaluatorLocals
    ensures Build(Constant(c, name, value), data).Ok?
    ensures Lookup(Build(c, data).value, name, host) ==
              if name in Keys(c) then Bound(Get(c, name).value) else Lookup(Build(Empty<V>(), data).value, name, host)
    ensures Lookup(Build(Constant(c, name, value), data).value, name, host) == Bound(value)
  {
  }

  /**
   * A valid identifier that cannot be a parameter name (`ctx`, `eval`, a
   * reserved word) is stored by `constant`, and from then on every `context`
   * call of that instance throws.
   */
  lemma UnbindableNameBreaksContext<V, D>(c: Constants<V>, name: string, value: V, data: D)
    requires Registrable(name) && !Bindable(name)
    ensures name in Keys(Constant(c, name, value))
    ensures Build(Constant(c, name, value), data) == Err(SyntaxError)
  {
  }

  /** The completion of `eval( command )`: a value, or a thrown error. */
  datatype Completion<V, E> = Value(value: V) | Throw(error: E)

  /**
   * `eval( command )` inside the evaluator: its completion for a command, the
   * context it runs in, and the mode. The mode is an argument because the
   * command can read it, through `isAsync` and `arguments`.
   */
  type Eval<!V, !D, E> = (string, Context<V, D>, bool) -> Completion<V, E>

  /**
   * The command's completion is the same in both modes, as for a command that
   * neither reads nor assigns `isAsync` or `arguments`. A command that assigns
   * `isAsync` before throwing is outside the model whatever this says, since
   * the `catch` then reads the assigned value.
   */
  ghost predicate IgnoresMode<V, D, E>(ev: Eval<V, D, E>, c: Context<V, D>, command: string) {
    ev(command, c, false) == ev(command, c, true)
  }

  /** What the caller of the evaluator sees. */
  datatype Outcome<V, E> = Returned(value: V) | Thrown(error: E) | Rejected(error: E)

  /**
   * What `ctx.async` hands back for a thrown error `e`: the evaluator calls
   * `Promise.reject(e)` (isolate.js:40), and `Promise` is looked up like any
   * other name of the generated text. Unless a constant called `Promise` was
   * captured, it is the host's promise constructor and the result is a
   * rejection carrying `e`. A captured `Promise` shadows it: then the outcome
   * is whatever calling `reject` on the captured value gives, which `reject`
   * models (a `TypeError` thrown when the value has no callable `reject`). A
   * promise that `reject` returns is an ordinary value here, even when it is a
   * rejected host promise, as it is when the host's own `Promise` was captured.
   */
  function RejectWith<V, D, E>(reject: (V, E) -> Completion<V, E>, c: Context<V, D>, e: E): (r: Outcome<V, E>)
    ensures SnapshotValue(c.snapshot, "Promise").None? ==> r == Rejected(e)
    ensures SnapshotValue(c.snapshot, "Promise").Some? ==>
              !r.Rejected? && Settle(r) == reject(SnapshotValue(c.snapshot, "Promise").value, e)
  {
    match SnapshotValue(c.snapshot, "Promise")
    case None => Rejected(e)
    case Some(p) =>
      match reject(p, e)
      case Value(v) => Returned(v)
      case Throw(x) => Thrown(x)
  }

  /**
   * The evaluator `ctx(command, isAsync)` (isolate.js:36-42). `isAsync` is true
   * exactly when the caller passed the boolean `true`: the source compares with
   * `===`, so an omitted or merely truthy argument selects the synchronous path.
   * A second argument other than `true` is modelled as an omitted one: `ev`
   * sees only the mode, not the argument itself, so `ctx("isAsync", 1)` (which
   * yields `1`, with `arguments.length` 2) is not told apart from `ctx("isAsync")`.
   * `reject` is the behaviour of a captured `Promise` constant, see `RejectWith`.
   */
  function Evaluate<V, D, E>(ev: Eval<V, D, E>, reject: (V, E) -> Completion<V, E>,
                             c: Context<V, D>, command: string, isAsync: bool): (r: Outcome<V, E>)
    ensures ev(command, c, isAsync).Value? ==> r == Returned(ev(command, c, isAsync).value)
    ensures !isAsync || SnapshotValue(c.snapshot, "Promise").None? ==> Settle(r) == ev(command, c, isAsync)
    ensures !isAsync ==> !r.Rejected?
    ensures isAsync && SnapshotValue(c.snapshot, "Promise").None? ==> !r.Thrown?
    ensures r.Rejected? ==> isAsync && ev(command, c, true) == Throw(r.error)
  {
    match ev(command, c, isAsync)
    case Value(v) => Returned(v)
    case Throw(e) => if isAsync then RejectWith(reject, c, e) else Thrown(e)
  }

  /** `ctx(command)`: the synchronous path, which never consults `Promise`. */
  function Call<V, D, E>(ev: Eval<V, D, E>, c: Context<V, D>, command: string): (r: Outcome<V, E>)
    ensures Settle(r) == ev(command, c, false)
    ensures !r.Rejected?
  {
    match ev(command, c, false)
    case Value(v) => Returned(v)
    case Throw(e) => Thrown(e)
  }

  /** `ctx.async(command)`, defined as `cmd => ctx(cmd, true)` (isolate.js:43). */
  function Async<V, D, E>(ev: Eval<V, D, E>, reject: (V, E) -> Completion<V, E>,
                          c: Context<V, D>, command: string): (r: Outcome<V, E>)
    ensures ev(command, c, true).Value? ==> r == Returned(ev(command, c, true).value)
    ensures SnapshotValue(c.snapshot, "Promise").None? ==> Settle(r) == ev(command, c, true) && !r.Thrown?
  {
    Evaluate(ev, reject, c, command, true)
  }

  /**
   * What a caller observes once it has caught a throw or awaited a rejection:
   * the value or the error, whichever channel carried it.
   */
  function Settle<V, E>(o: Outcome<V, E>): Completion<V, E> {
    match o
    case Returned(v) => Value(v)
    case Thrown(e) => Throw(e)
    case Rejected(e) => Throw(e)
  }

  /** `ctx(command)` is `ctx(command, isAsync)` with `isAsync` not `true`, whatever `Promise` is bound to. */
  lemma CallIsSynchronousEvaluate<V, D, E>(ev: Eval<V, D, E>, reject: (V, E) -> Completion<V, E>,
                                           c: Context<V, D>, command: string)
    ensures Call(ev, c, command) == Evaluate(ev, reject, c, command, false)
  {
  }

  /**
   * Successful evaluation returns the value as is in both modes; `async` does
   * not wrap it. A command that reads the mode may succeed with different
   * values (`ctx("isAsync")` is `undefined`, `ctx.async("isAsync")` is
   * `true`), and then the modes differ. For a command that does not, and
   * unless a `Promise` constant was captured, the two modes differ exactly
   * when evaluation throws.
   */
  lemma ModesAgreeExactlyOnSuccess<V, D, E>(ev: Eval<V, D, E>, reject: (V, E) -> Completion<V, E>,
                                            c: Context<V, D>, command: string)
    ensures ev(command, c, false).Value? ==> Call(ev, c, command) == Returned(ev(command, c, false).value)
    ensures ev(command, c, true).Value? ==> Async(ev, reject, c, command) == Returned(ev(command, c, true).value)
    ensures ev(command, c, false).Value? && ev(command, c, true).Value? ==>
              (Call(ev, c, command) == Async(ev, reject, c, command) <==> IgnoresMode(ev, c, command))
    ensures IgnoresMode(ev, c, command) && SnapshotValue(c.snapshot, "Promise").None? ==>
              (Call(ev, c, command) == Async(ev, reject, c, command) <==> ev(command, c, false).Value?)
  {
  }

  /**
   * A thrown error is re-thrown unchanged by `ctx`. Under `ctx.async` it
   * becomes a rejection carrying the same error, unless a captured `Promise`
   * constant takes over: then the caller gets what its `reject` gives, which
   * the model never tags as a rejection. The synchronous mode never rejects.
   */
  lemma ErrorChannels<V, D, E>(ev: Eval<V, D, E>, reject: (V, E) -> Completion<V, E>,
                               c: Context<V, D>, command: string)
    ensures ev(command, c, false).Throw? ==> Call(ev, c, command) == Thrown(ev(command, c, false).error)
    ensures ev(command, c, true).Throw? && SnapshotValue(c.snapshot, "Promise").None? ==>
              Async(ev, reject, c, command) == Rejected(ev(command, c, true).error)
    ensures ev(command, c, true).Throw? && SnapshotValue(c.snapshot, "Promise").Some? ==>
              Settle(Async(ev, reject, c, command)) == reject(SnapshotValue(c.snapshot, "Promise").value, ev(command, c, true).error)
              && !Async(ev, reject, c, command).Rejected?
    ensures !Call(ev, c, command).Rejected?
    ensures SnapshotValue(c.snapshot, "Promise").None? ==> !Async(ev, reject, c, command).Thrown?
  {
  }

  /**
   * A constant called `Promise` is an ordinary captured binding: a context
   * built from a registry holding it resolves `Promise` to that value, and that
   * is the value whose `reject` the asynchronous error path calls.
   */
  lemma CapturedPromiseIsTheRegisteredOne<V, D>(c: Constants<V>, data: D, host: map<string, V>)
    requires Build(c, data).Ok? && Get(c, "Promise").Some?
    ensures SnapshotValue(Build(c, data).value.snapshot, "Promise") == Get(c, "Promise")
    ensures Lookup(Build(c, data).value, "Promise", host) == Bound(Get(c, "Promise").value)
  {
  }
}

=== FILE: names.dfy ===
/**
 * The identifier check `constant` applies before it stores anything
 * (isolate.js:63, isolate.js:70): the name must match the regular expression
 * `/^[$a-z_][$_a-z0-9]*$/i` in full.
 *
 * The pattern is modelled twice: once as written (two character classes
 * matched under the `i` flag's case folding) and once as the plain character
 * predicate `IsValidName`; `PatternMatchesValidNames` proves the two agree, and
 * the method `Test` scans a name the way the regular expression engine does.
 */
module Names {

  /** The characters `lo` to `hi` in code point order, as a range `lo-hi` inside a class. */
  function Range(lo: char, hi: char): (r: string)
    requires lo <= hi <= '\U{7F}'
    ensures |r| == hi as int - lo as int + 1
    ensures forall c :: c in r <==> lo <= c <= hi
    ensures forall i, j :: 0 <= i < j < |r| ==> r[i] < r[j]
  {
    var r := seq(hi as int - lo as int + 1, i requires 0 <= i <= hi as int - lo as int => (lo as int + i) as char);
    assert forall c | lo <= c <= hi :: c in r by {
      forall c | lo <= c <= hi ensures c in r {
        assert r[c as int - lo as int] == c;
      }
    }
    r
  }

  /** The first class of the pattern, `[$a-z_]`, as written. */
  function StartClass(): string {
    "$" + Range('a', 'z') + "_"
  }

  /** The repeated class of the pattern, `[$_a-z0-9]`, as written. */
  function PartClass(): string {
    "$_" + Range('a', 'z') + Range('0', '9')
  }

  /**
   * Case folding of the `i` flag without the `u` flag (the Canonicalize step of
   * ECMAScript regular expressions): an ASCII lower-case letter folds to its
   * upper-case form. A character at or above U+0080 never folds onto an ASCII
   * character, so against the ASCII classes above it behaves as if it folded to
   * itself.
   */
  function Canonicalize(c: char): char {
    if 'a' <= c <= 'z' then (c as int - 32) as char else c
  }

  /** `c` matches the character class `cls` under case-insensitive matching. */
  predicate ClassMatches(cls: string, c: char) {
    exists m :: m in cls && Canonicalize(m) == Canonicalize(c)
  }

  /** The pattern `/^[$a-z_][$_a-z0-9]*$/i` accepts the whole of `s`. */
  predicate PatternMatches(s: string) {
    && |s| > 0
    && ClassMatches(StartClass(), s[0])
    && forall i :: 1 <= i < |s| ==> ClassMatches(PartClass(), s[i])
  }

  /** A character that may begin a name: `$`, `_` or an ASCII letter of either case. */
  predicate IsNameStart(c: char) {
    c == '$' || c == '_' || 'A' <= c <= 'Z' || 'a' <= c <= 'z'
  }

  /** A character that may continue a name: a start character or an ASCII digit. */
  predicate IsNamePart(c: char) {
    IsNameStart(c) || '0' <= c <= '9'
  }

  /** `[$A-Za-z_][$A-Za-z0-9_]*`, spelled out character by character. */
  predicate IsValidName(s: string) {
    && |s| > 0
    && IsNameStart(s[0])
    && forall i :: 1 <= i < |s| ==> IsNamePart(s[i])
  }

  lemma StartClassMatches(c: char)
    ensures ClassMatches(StartClass(), c) <==> IsNameStart(c)
  {
    var cls := StartClass();
    if IsNameStart(c) {
      var m := if 'A' <= c <= 'Z' then (c as int + 32) as char else c;
      if 'a' <= m <= 'z' {
        assert cls[1 + (m as int - 'a' as int)] == m;
      } else if m == '$' {
        assert cls[0] == m;
      } else {
        assert cls[|cls| - 1] == m;
      }
      assert m in cls && Canonicalize(m) == Canonicalize(c);
    }
    if ClassMatches(cls, c) {
      var m :| m in cls && Canonicalize(m) == Canonicalize(c);
      var k :| 0 <= k < |cls| && cls[k] == m;
      assert m == '$' || m == '_' || 'a' <= m <= 'z';
    }
  }

  lemma PartClassMatches(c: char)
    ensures ClassMatches(PartClass(), c) <==> IsNamePart(c)
  {
    var cls := PartClass();
    if IsNamePart(c) {
      var m := if 'A' <= c <= 'Z' then (c as int + 32) as char else c;
      if 'a' <= m <= 'z' {
        assert cls[2 + (m as int - 'a' as int)] == m;
      } else if '0' <= m <= '9' {
        assert cls[28 + (m as int - '0' as int)] == m;
      } else if m == '$' {
        assert cls[0] == m;
      } else {
        assert cls[1] == m;
      }
      assert m in cls && Canonicalize(m) == Canonicalize(c);
    }
    if ClassMatches(cls, c) {
      var m :| m in cls && Canonicalize(m) == Canonicalize(c);
      var k :| 0 <= k < |cls| && cls[k] == m;
      assert m == '$' || m == '_' || 'a' <= m <= 'z' || '0' <= m <= '9';
    }
  }

  /**
   * The pattern as written, with its `i` flag, accepts exactly the names of the
   * form `[$A-Za-z_][$A-Za-z0-9_]*`: a digit, `.`, `[`, a space or any non-ASCII
   * character anywhere it is not allowed makes the name invalid.
   */
  lemma PatternMatchesValidNames(s: string)
    ensures PatternMatches(s) <==> IsValidName(s)
  {
    if |s| > 0 {
      StartClassMatches(s[0]);
      forall i | 1 <= i < |s|
        ensures ClassMatches(PartClass(), s[i]) <==> IsNamePart(s[i])
      {
        PartClassMatches(s[i]);
      }
    }
  }

  /** The states of a left-to-right scan of the anchored pattern. */
  datatype ScanState = BeforeFirst | InName | Failed

  /** One step of the scan: the first character against `[$a-z_]`, every later one against `[$_a-z0-9]`. */
  function Step(state: ScanState, c: char): ScanState {
    match state
    case BeforeFirst => if ClassMatches(StartClass(), c) then InName else Failed
    case InName => if ClassMatches(PartClass(), c) then InName else Failed
    case Failed => Failed
  }

  /**
   * `RegExp.prototype.test` for the name pattern: scans `name` once, stopping at
   * the first character the pattern refuses, and accepts when the scan consumed
   * at least one character and never failed.
   */
  method Test(name: string) returns (matched: bool)
    ensures matched <==> IsValidName(name)
  {
    var state := BeforeFirst;
    var i := 0;
    while i < |name| && state != Failed
      invariant 0 <= i <= |name|
      invariant state == BeforeFirst <==> i == 0
      invariant state == InName ==> IsValidName(name[..i])
      invariant state == Failed ==> !IsValidName(name)
    {
      if i == 0 {
        StartClassMatches(name[i]);
      } else {
        PartClassMatches(name[i]);
      }
      state := Step(state, name[i]);
      i := i + 1;
    }
    matched := state == InName;
    if matched {
      assert name[..i] == name;
    }
  }
}

=== FILE: registry.dfy ===
/**
 * The constant registry of one `Isolate` instance (isolate.js:12-20,
 * isolate.js:69-76): the object `this.constants`, seen through `Object.keys`
 * as an ordered list of named entries.
 *
 * Every stored name is a valid identifier, so none looks like an array index
 * and `Object.keys` lists the names in the order they were first stored. An
 * assignment to a name that is already present replaces its value in place.
 */
module Registry {
  import opened Results
  import opened Names

  /** One own property of `this.constants`. */
  datatype Entry<V> = Entry(name: string, value: V)

  function NamesOf<V>(es: seq<Entry<V>>): (r: seq<string>)
    ensures |r| == |es|
    ensures forall i :: 0 <= i < |es| ==> r[i] == es[i].name
  {
    seq(|es|, i requires 0 <= i < |es| => es[i].name)
  }

  /**
   * A name `constant` actually stores as an own property, as long as
   * `this.constants` still inherits from `Object.prototype`. `__proto__` passes
   * the identifier check, but assigning to it runs the setter inherited from
   * `Object.prototype`, which replaces the prototype instead of creating an own
   * property.
   */
  predicate Registrable(name: string) {
    IsValidName(name) && name != "__proto__"
  }

  predicate UniqueNames<V>(es: seq<Entry<V>>) {
    forall i, j :: 0 <= i < j < |es| ==> es[i].name != es[j].name
  }

  predicate WellFormed<V>(t: Table<V>) {
    && UniqueNames(t.entries)
    && forall i :: 0 <= i < |t.entries| ==> Registrable(t.entries[i].name)
  }

  datatype Table<V> = Table(entries: seq<Entry<V>>)

  /** The registry: distinct, registrable names in `Object.keys` order. */
  type Constants<V> = t: Table<V> | WellFormed(t) witness Table([])

  /** The registry of a fresh instance, `this.constants = {}` (isolate.js:13). */
  function Empty<V>(): Constants<V> {
    Table([])
  }

  /** `Object.keys(this.constants)`. */
  function Keys<V>(c: Constants<V>): seq<string> {
    NamesOf(c.entries)
  }

  /** The position of the first entry called `name`, if any. */
  function Find<V>(es: seq<Entry<V>>, name: string): (r: Option<nat>)
    ensures r.None? <==> forall i :: 0 <= i < |es| ==> es[i].name != name
    ensures r.Some? ==> r.value < |es| && es[r.value].name == name
    ensures r.Some? ==> forall i :: 0 <= i < r.value ==> es[i].name != name
  {
    if |es| == 0 then None
    else if es[0].name == name then Some(0)
    else match Find(es[1..], name)
      case None => None
      case Some(k) => Some(k + 1)
  }

  /** `this.constants[name]` as an own property: the stored value, or nothing. */
  function Get<V>(c: Constants<V>, name: string): (r: Option<V>)
    ensures r.None? <==> name !in Keys(c)
    ensures forall i :: 0 <= i < |c.entries| && c.entries[i].name == name ==> r == Some(c.entries[i].value)
  {
    match Find(c.entries, name)
    case None => None
    case Some(i) => Some(c.entries[i].value)
  }

  /**
   * `constant(name, value)`: a name the identifier check refuses is reported
   * and skipped; `__proto__` leaves the keys alone; any other name is stored,
   * replacing an earlier value in its old position or appended after the
   * existing keys. The prototype change `__proto__` causes, and the
   * `TypeError` it throws when the new prototype would form a cycle, are not
   * represented.
   */
  function Constant<V>(c: Constants<V>, name: string, value: V): (r: Constants<V>)
    ensures !Registrable(name) ==> r == c
    ensures Registrable(name) ==> Get(r, name) == Some(value)
    ensures forall n :: n != name ==> Get(r, n) == Get(c, n)
    ensures Keys(r) == if Registrable(name) && name !in Keys(c) then Keys(c) + [name] else Keys(c)
  {
    if !IsValidName(name) then c
    else if name == "__proto__" then c
    else match Find(c.entries, name)
      case Some(i) =>
        var r: Constants<V> := Table(c.entries[i := Entry(name, value)]);
        assert Keys(r) == Keys(c);
        r
      case None =>
        var r: Constants<V> := Table(c.entries + [Entry(name, value)]);
        assert r.entries[|c.entries|] == Entry(name, value);
        assert Keys(r) == Keys(c) + [name];
        r
  }

  /** The message `constant` writes to the error console for a refused name (isolate.js:71). */
  function Diagnostic(name: string): (r: Option<string>)
    ensures r.None? <==> IsValidName(name)
    ensures r.Some? ==> |name| < |r.value| && r.value[|r.value| - |name|..] == name
  {
    if IsValidName(name) then None else Some("Invalid variable name: " + name)
  }

  /**
   * A refused name produces exactly one diagnostic and leaves the registry as
   * it was; an accepted name produces none.
   */
  lemma InvalidNameIsReportedAndSkipped<V>(c: Constants<V>, name: string, value: V)
    ensures Diagnostic(name).Some? <==> !IsValidName(name)
    ensures Diagnostic(name).Some? ==> Constant(c, name, value) == c
  {
  }

  /** The registry as the plain object it stands for: a finite map from names to values. */
  ghost function ToMap<V>(c: Constants<V>): (m: map<string, V>)
    ensures m.Keys == set n | n in Keys(c)
  {
    map n | n in Keys(c) :: Get(c, n).value
  }

  /**
   * On the object view, `constant` is a single property assignment
   * `constants[name] = value` when the name is stored, and no change otherwise.
   */
  lemma ConstantIsAssignment<V>(c: Constants<V>, name: string, value: V)
    ensures ToMap(Constant(c, name, value)) == if Registrable(name) then ToMap(c)[name := value] else ToMap(c)
  {
  }

  /** Registering a name twice keeps only the second value, at the position of the first registration. */
  lemma ConstantOverwrites<V>(c: Constants<V>, name: string, v1: V, v2: V)
    ensures Constant(Constant(c, name, v1), name, v2) == Constant(c, name, v2)
  {
  }

  /**
   * `constant` applied to each entry in turn, from left to right. Existing
   * keys keep their places at the front; the keys added are the registrable
   * supplied names; a value that changed is one of the supplied entries.
   */
  function ConstantAll<V>(c: Constants<V>, es: seq<Entry<V>>): (r: Constants<V>)
    ensures Keys(c) <= Keys(r)
    ensures forall n :: n in Keys(r) <==> n in Keys(c) || (Registrable(n) && n in NamesOf(es))
    ensures forall n :: Get(r, n).Some? ==> Get(r, n) == Get(c, n) || Entry(n, Get(r, n).value) in es
    decreases |es|
  {
    if |es| == 0 then c
    else
      assert NamesOf(es) == [es[0].name] + NamesOf(es[1..]);
      assert forall e :: e in es[1..] ==> e in es;
      ConstantAll(Constant(c, es[0].name, es[0].value), es[1..])
  }

  /**
   * The registry `new Isolate(constants)` starts from (isolate.js:12-20):
   * `es` is `Object.entries(constants)`, empty when the argument is missing.
   * It stores exactly the supplied names the identifier check accepts, other
   * than `__proto__`, each with a value supplied under that name.
   */
  function New<V>(es: seq<Entry<V>>): (r: Constants<V>)
    ensures forall n :: n in Keys(r) <==> Registrable(n) && n in NamesOf(es)
    ensures forall n :: Get(r, n).Some? ==> Entry(n, Get(r, n).value) in es
  {
    ConstantAll(Empty(), es)
  }

  lemma {:induction false} ConstantAllSnoc<V>(c: Constants<V>, es: seq<Entry<V>>, e: Entry<V>)
    ensures ConstantAll(c, es + [e]) == Constant(ConstantAll(c, es), e.name, e.value)
    decreases |es|
  {
    if |es| == 0 {
      assert es + [e] == [e];
    } else {
      assert (es + [e])[1..] == es[1..] + [e];
      ConstantAllSnoc(Constant(c, es[0].name, es[0].value), es[1..], e);
    }
  }

  /** The constructor's loop: `for (let [k,v] of Object.entries(constants)) this.constant(k, v)`. */
  method Construct<V>(es: seq<Entry<V>>) returns (c: Constants<V>)
    ensures c == New(es)
  {
    c := Empty();
    var i := 0;
    while i < |es|
      invariant 0 <= i <= |es|
      invariant c == New(es[..i])
    {
      assert es[..i + 1] == es[..i] + [es[i]];
      ConstantAllSnoc(Empty(), es[..i], es[i]);
      c := Constant(c, es[i].name, es[i].value);
      i := i + 1;
    }
    assert es[..i] == es;
  }

  /** The value of the last entry of `es` called `name`, if any. */
  function LastValue<V>(es: seq<Entry<V>>, name: string): Option<V> {
    if |es| == 0 then None
    else if es[|es| - 1].name == name then Some(es[|es| - 1].value)
    else LastValue(es[..|es| - 1], name)
  }

  /**
   * A new instance holds, for every registrable name among the supplied
   * entries, the value of the last entry with that name, and nothing else.
   */
  lemma {:induction false} NewHoldsLastValues<V>(es: seq<Entry<V>>, name: string)
    ensures Get(New(es), name) == if Registrable(name) then LastValue(es, name) else None
    decreases |es|
  {
    if |es| > 0 {
      var init, last := es[..|es| - 1], es[|es| - 1];
      assert es == init + [last];
      ConstantAllSnoc(Empty(), init, last);
      NewHoldsLastValues(init, name);
    }
  }

  /** `names` with every element dropped that already occurred earlier. */
  function Dedup(names: seq<string>): seq<string> {
    if |names| == 0 then []
    else if names[|names| - 1] in names[..|names| - 1] then Dedup(names[..|names| - 1])
    else Dedup(names[..|names| - 1]) + [names[|names| - 1]]
  }

  lemma {:induction false} DedupMembers(names: seq<string>, n: string)
    ensures n in Dedup(names) <==> n in names
    decreases |names|
  {
    if |names| > 0 {
      var init := names[..|names| - 1];
      assert names == init + [names[|names| - 1]];
      DedupMembers(init, n);
    }
  }

  /** The names of the supplied entries that `constant` would store, in order, repeats included. */
  function RegistrableNames<V>(es: seq<Entry<V>>): seq<string> {
    if |es| == 0 then []
    else if Registrable(es[|es| - 1].name) then RegistrableNames(es[..|es| - 1]) + [es[|es| - 1].name]
    else RegistrableNames(es[..|es| - 1])
  }

  lemma {:induction false} RegistrableNamesMembers<V>(es: seq<Entry<V>>, n: string)
    ensures n in RegistrableNames(es) <==> Registrable(n) && n in NamesOf(es)
    decreases |es|
  {
    if |es| > 0 {
      var init := es[..|es| - 1];
      RegistrableNamesMembers(init, n);
      assert NamesOf(es) == NamesOf(init) + [es[|es| - 1].name];
    }
  }

  /**
   * The keys of a new instance are the registrable supplied names, each listed
   * once, in the order of their first occurrence among the entries.
   */
  lemma {:induction false} NewKeysInFirstOccurrenceOrder<V>(es: seq<Entry<V>>)
    ensures Keys(New(es)) == Dedup(RegistrableNames(es))
    decreases |es|
  {
    if |es| > 0 {
      var init, last := es[..|es| - 1], es[|es| - 1];
      assert es == init + [last];
      ConstantAllSnoc(Empty(), init, last);
      NewKeysInFirstOccurrenceOrder(init);
      if Registrable(last.name) {
        var prev := RegistrableNames(init);
        assert RegistrableNames(es) == prev + [last.name];
        assert (prev + [last.name])[..|prev|] == prev;
        DedupMembers(prev, last.name);
      }
    }
  }
}

=== FILE: results.dfy ===
/** Failure-carrying values shared by the other modules. */
module Results {

  /** A value that may be missing, used for lookups that can fail. */
  datatype Option<+T> = None | Some(value: T)

  /** The outcome of an operation that either produces a value or fails with an error. */
  datatype Result<+T, +E> = Ok(value: T) | Err(error: E)
}

=== FILE: statics.dfy ===
/**
 * The static shortcuts `Isolate.constant` and `Isolate.command`
 * (isolate.js:78-110), which delegate to one shared instance,
 * `defaultIsolater = new Isolate()` (isolate.js:113). The shared instance's
 * registry is threaded through a sequence of static calls.
 */
module Statics {
  import opened Results
  import opened Registry
  import opened Context

  /** The registry of `defaultIsolater` when the module is loaded: built without constants. */
  function DefaultRegistry<V>(): Constants<V> {
    New([])
  }

  /**
   * `Isolate.constant(name, value)`: registers on the shared instance, with
   * the effect `defaultIsolater.constant(name, value)` has on its registry.
   */
  function StaticConstant<V>(shared: Constants<V>, name: string, value: V): (r: Constants<V>)
    ensures Keys(shared) <= Keys(r)
    ensures forall n :: Get(r, n) == if n == name && Registrable(name) then Some(value) else Get(shared, n)
  {
    Constant(shared, name, value)
  }

  /**
   * `Isolate.command(command, data)`: builds a context of the shared instance
   * for `data` and calls it synchronously. A failure to build is thrown by
   * `context` before any evaluation happens.
   */
  function StaticCommand<V, D, E>(shared: Constants<V>, ev: Eval<V, D, E>, command: string, data: D): (r: Result<Outcome<V, E>, BuildError>)
    ensures r.Err? <==> Build(shared, data).Err?
    ensures r.Ok? ==> !r.value.Rejected?
    ensures r.Ok? ==> Settle(r.value) == ev(command, Build(shared, data).value, false)
  {
    match Build(shared, data)
    case Err(e) => Err(e)
    case Ok(c) => Ok(Call(ev, c, command))
  }

  /** One call of a static shortcut. */
  datatype StaticCall<V, D> = ConstantCall(name: string, value: V) | CommandCall(command: string, data: D)

  /** What a static call hands back: nothing for `constant`, the command's outcome for `command`. */
  datatype Reply<V, E> = Registered | Ran(result: Result<Outcome<V, E>, BuildError>)

  /** The shared registry after one static call. */
  function Next<V, D>(shared: Constants<V>, call: StaticCall<V, D>): Constants<V> {
    match call
    case ConstantCall(name, value) => StaticConstant(shared, name, value)
    case CommandCall(_, _) => shared
  }

  /** What one static call hands back, given the shared registry it runs on. */
  function ReplyTo<V, D, E>(ev: Eval<V, D, E>, shared: Constants<V>, call: StaticCall<V, D>): Reply<V, E> {
    match call
    case ConstantCall(_, _) => Registered
    case CommandCall(command, data) => Ran(StaticCommand(shared, ev, command, data))
  }

  /**
   * The shared registry and the replies after running `calls` in order,
   * starting from the registry `shared` (`DefaultRegistry()` at module load).
   */
  function Run<V, D, E>(ev: Eval<V, D, E>, shared: Constants<V>, calls: seq<StaticCall<V, D>>): (r: (Constants<V>, seq<Reply<V, E>>))
    ensures |r.1| == |calls|
    ensures forall i :: 0 <= i < |calls| ==> (r.1[i] == Registered <==> calls[i].ConstantCall?)
    ensures Keys(shared) <= Keys(r.0)
    ensures (forall i :: 0 <= i < |calls| ==> calls[i].CommandCall?) ==> r.0 == shared
    decreases |calls|
  {
    if |calls| == 0 then (shared, [])
    else
      var rest := Run(ev, Next(shared, calls[0]), calls[1..]);
      (rest.0, [ReplyTo(ev, shared, calls[0])] + rest.1)
  }

  /** The constants registered through `Isolate.constant`, in call order. */
  function Registrations<V, D>(calls: seq<StaticCall<V, D>>): seq<Entry<V>>
    decreases |calls|
  {
    if |calls| == 0 then []
    else match calls[0]
      case ConstantCall(name, value) => [Entry(name, value)] + Registrations(calls[1..])
      case CommandCall(_, _) => Registrations(calls[1..])
  }

  lemma RegistrationsStep<V, D>(shared: Constants<V>, calls: seq<StaticCall<V, D>>)
    requires |calls| > 0
    ensures ConstantAll(shared, Registrations(calls)) == ConstantAll(Next(shared, calls[0]), Registrations(calls[1..]))
  {
  }

  /**
   * After any sequence of static calls, the shared registry is the one that
   * registering, in order, every constant passed to `Isolate.constant`
   * produces. From module load this is `New(Registrations(calls))`. The
   * `command` calls count for nothing here: `ev` is a function of the command
   * and the context only, so an evaluated command that itself calls
   * `Isolate.constant` is outside this model.
   */
  lemma {:induction false} SharedRegistryAccumulates<V, D, E>(ev: Eval<V, D, E>, shared: Constants<V>, calls: seq<StaticCall<V, D>>)
    ensures Run(ev, shared, calls).0 == ConstantAll(shared, Registrations(calls))
    decreases |calls|
  {
    if |calls| > 0 {
      SharedRegistryAccumulates(ev, Next(shared, calls[0]), calls[1..]);
      RegistrationsStep(shared, calls);
    }
  }

  /**
   * Every `Isolate.command(command, data)` behaves as
   * `defaultIsolater.context(data)(command)` on the one shared registry, which
   * holds every constant registered through `Isolate.constant` before it
   * (registrations made from inside evaluated commands are not modelled).
   */
  lemma {:induction false} CommandUsesSharedRegistry<V, D, E>(ev: Eval<V, D, E>, shared: Constants<V>, calls: seq<StaticCall<V, D>>, i: nat)
    requires i < |calls| && calls[i].CommandCall?
    ensures Run(ev, shared, calls).1[i] ==
              Ran(StaticCommand(ConstantAll(shared, Registrations(calls[..i])), ev, calls[i].command, calls[i].data))
    decreases |calls|
  {
    if i == 0 {
      assert calls[..i] == [];
    } else {
      var rest := calls[1..];
      assert calls[..i][1..] == rest[..i - 1];
      RegistrationsStep(shared, calls[..i]);
      CommandUsesSharedRegistry(ev, Next(shared, calls[0]), rest, i - 1);
    }
  }
}
